=== FILE: README.md ===
# Friend requests, chat links and route guard of a realtime chat app, in Dafny

This project models the logic of a small Next.js chat application in which users
add each other as friends and chat in real time. Most of that application is
rendering and vendor glue. The parts with behaviour of their own are modelled
here as pure Dafny functions over immutable data:

- **Identifiers** (`src/lib/utils.ts`):
  - `getChatHref` builds a conversation id from two user ids: the smaller id, then `--`, then the larger.
  - `toPusherKey` turns a Redis key into a channel name by replacing each `:` with `__`.
- **The friend-relationship state machine** (`src/lib/actions.ts`, `src/helpers/friend.ts`).
  - The Redis sets become a `Store`. It maps each user to two sets: incoming requests and friends. It also holds the email index and the user records.
  - The three server actions (create, accept, deny) become transitions. Each returns the store after the call together with the error it threw, if any.
  - The read helpers become functions of the store, plus one method for the friends lookup.
- **The route guard** (`src/middleware.ts`): a decision from the path and the authentication status to `Pass` or `Redirect(target)`.
- **Two client-side lists:**
  - `FriendRequests.tsx`: the pending-request list, updated by live events and by the accept and deny buttons, and the channel subscription that mount and cleanup pair up.
  - `SidebarChatList.tsx`: the unseen-message list, filtered when the path changes, and the per-friend badge.

Modules follow the source files:

| module | file |
|---|---|
| `Utils` | `utils.dfy` |
| `Db` (the store, its views and the Redis key scheme) | `db.dfy` |
| `Friend` | `friend.dfy` |
| `Actions` | `actions.dfy` |
| `Middleware` | `middleware.dfy` |
| `FriendRequests` | `friend_requests.dfy` |
| `SidebarChatList` | `sidebar_chat_list.dfy` |

The helper modules are:

- `Options`: the option type.
- `Strings`: `startsWith` and `includes`.
- `Seqs`: `Array.prototype.filter` and the subsequence order, with their lemmas.

## Behaviour of the code worth knowing

- **Payload parsing comes first.** Every action parses its input with zod before it reads the session (`src/lib/actions.ts:12`, `:60`, `:89`). So a malformed payload is reported as `InvalidPayload` even without a session, and `Unauthorized` comes first among all the other errors.
- **The empty string counts as missing.** `!session.user?.id` and `!idToAdd` are falsiness tests, so an empty session id counts as no session and an empty resolved id counts as "does not exist".
- **Accept leaves the reverse request.** Accepting a request does not remove a pending request in the opposite direction (`src/lib/actions.ts:76-78`). So "pending" and "friends" are not mutually exclusive in the stored data. `Actions.AcceptLeavesReverseRequest` exhibits such a store.
- **A missing user record reads as `null`.** A friend id whose user record is missing gives `JSON.parse(null)`, which is `null`. `Friend.GetFriendsByUserId` returns `None` in that position.
- **The sidebar keeps the given order.** `friends.toSorted()` sorts user objects by their string form, which is `"[object Object]"` for every one of them. The stable sort therefore leaves the order as given, and `SidebarChatList.Entries` keeps it.
- **Nothing publishes the friend-request event.** The request list subscribes to the user's request channel and binds a handler to `incoming_friend_requests` (`src/components/FriendRequests.tsx:34-37`). But `createFriendeRequest` ends at the store write (`src/lib/actions.ts:48-49`), and no code in the modelled source publishes to that channel. The handler (`src/components/FriendRequests.tsx:27-32`) therefore runs only if some other publisher sends the event. The lemmas about appending an event are conditional on such a delivery.
- **The unseen list is always empty.** It starts empty and no code ever adds to it, only filters it. `SidebarChatList.UnseenStaysEmpty` proves that the list stays empty after any series of path changes and that every friend's unseen count is then 0. The count and the badge are still modelled for any list.

## Model

| member | source | states |
|---|---|---|
| `Utils.ChatHref` | src/lib/utils.ts:8-11 | the conversation id is one of the two orders of the ids around `--`, and its length is the sum of the ids' lengths plus two |
| `Utils.ChatHrefSymmetric` | src/lib/utils.ts:8-11 | both participants compute the same conversation id: `getChatHref(a, b) == getChatHref(b, a)` |
| `Utils.ChatHrefSorted` | src/lib/utils.ts:9-10 | the id that sorts first (lexicographic order on characters, a proper prefix first) comes before `--` |
| `Utils.LexLeTotalOrder` | src/lib/utils.ts:9 | the order `toSorted` uses on strings is reflexive, antisymmetric, transitive and total |
| `Utils.ChatHrefDeterminesPair` | src/lib/utils.ts:8-11 | for ids without `-`, equal conversation ids mean the same unordered pair of users |
| `Utils.ChatHrefCollision` | src/lib/utils.ts:10 | ids containing `--` can collide: ("a--b", "c") and ("a", "b--c") both give "a--b--c" |
| `Utils.ToPusherKey` | src/lib/utils.ts:13-15 | the channel name contains no `:` and is longer than the key by exactly the number of `:` in it |
| `Utils.ToPusherKeyAppend` | src/lib/utils.ts:14 | the replacement works character by character: it distributes over concatenation |
| `Utils.ToPusherKeyNoColon` | src/lib/utils.ts:14 | a key without `:` is returned unchanged |
| `Utils.ToPusherKeyIdempotent` | src/lib/utils.ts:14 | applying the replacement twice gives the same as applying it once |
| `Utils.ToPusherKeyPosition` | src/lib/utils.ts:14 | the character at index i lands at i plus the number of earlier `:`; it is kept there if it is not `:`, and becomes `__` if it is, so the other characters keep their order |
| `Utils.ToPusherKeyJoin` | src/lib/utils.ts:14 | keys joined by `:` become channel names joined by `__` |
| `Utils.ToPusherKeyCollision` | src/lib/utils.ts:14 | the replacement is not injective: a `:` and a literal `__` in its place give the same channel |
| `Db.RedisKeysDistinct` | src/lib/actions.ts:49 | different users' request and friends sets live under different keys, and no request key is a friends key, so one set per user and kind loses nothing |
| `Friend.IsAlreadyAddedIsSIsMember` | src/helpers/friend.ts:4-10 | `isAlreadyAdded(idToAdd, userId)` answers exactly what `sismember` of `userId` on the key `user:<idToAdd>:incoming_friend_requests` answers in the flat Redis key space |
| `Friend.IsAlreadyFriendsIsSIsMember` | src/helpers/friend.ts:12-14 | `isAlreadyFriends(idToAdd, userId)` answers exactly what `sismember` of `idToAdd` on the key `user:<userId>:friends` answers; only that direction is consulted |
| `Friend.IsAlreadyFriendsSymmetric` | src/helpers/friend.ts:12-14 | on a store whose friend relation is symmetric, the answer does not depend on the argument order |
| `Friend.IsAlreadyFriendsOneDirection` | src/helpers/friend.ts:13 | without symmetry, the two argument orders can give different answers |
| `Friend.GetFriendsByUserId` | src/helpers/friend.ts:16-30 | returns one record per member of the friends set, without repeats; the i-th record is the one stored for the i-th id, or `None` when it is missing; an empty set gives an empty list |
| `Actions.CreateFriendRequest` | src/lib/actions.ts:10-56 | the errors in the order they are checked (payload; session, where an empty user id counts as none; unknown person, where no registered id and the empty id both count; self; already added; already friends); the call succeeds exactly when every check passes; a failing call leaves the store unchanged; on success exactly the requester is added to the target's incoming set, and nothing else changes |
| `Actions.AcceptFriendRequest` | src/lib/actions.ts:58-85 | the errors in the order they are checked (payload, session, already friends, no request); the call succeeds exactly when every check passes; a failing call leaves the store unchanged; on success each user is added to the other's friends set, the request leaves the accepter's incoming set, and nothing else changes |
| `Actions.DenyFriendRequest` | src/lib/actions.ts:87-108 | the errors in the order they are checked (payload, session, no request); the call succeeds exactly when every check passes; a failing call leaves the store unchanged; on success only that request is removed, and both friends sets are untouched |
| `Actions.UnauthorizedFirst` | src/lib/actions.ts:30-32 | without a session, or with an empty user id, each well-formed call fails `Unauthorized` and changes nothing, whatever the store holds |
| `Actions.CreateTwiceFails` | src/lib/actions.ts:40-42 | repeating a successful request fails "already added" and leaves the store as the first call left it |
| `Actions.CreatePreservesValid` | src/lib/actions.ts:49 | creating a request keeps the store invariant: the friend relation is symmetric and nobody is linked to themselves |
| `Actions.AcceptPreservesValid` | src/lib/actions.ts:76-78 | accepting a request keeps the friend relation symmetric and free of self-links |
| `Actions.DenyPreservesValid` | src/lib/actions.ts:101 | denying a request keeps the store invariant |
| `Actions.RequestThenAccept` | src/lib/actions.ts:49 | after a request from u1 to u2 and its acceptance, the two are each other's only friend and u2 has no pending request |
| `Actions.RequestThenDeny` | src/lib/actions.ts:101 | after a request from u1 to u2 and its denial, nothing is pending and nobody is a friend |
| `Actions.AcceptLeavesReverseRequest` | src/lib/actions.ts:76-78 | accepting leaves a request in the opposite direction in place, so a user can be both a friend and a pending sender |
| `Middleware.Route` | src/middleware.ts:5-22 | a redirect never targets the path it came from, and it targets only `/dashboard` or `/login` |
| `Middleware.RouteRules` | src/middleware.ts:8-21 | signed in on `/login...` goes to `/dashboard`; signed out on `/dashboard...` goes to `/login`; `/` goes to `/dashboard`; signed out on `/login...` and signed in on `/dashboard...` pass |
| `Middleware.RoutePassExactly` | src/middleware.ts:8-22 | a request passes exactly when none of the three rules applies |
| `Middleware.RedirectsSettle` | src/middleware.ts:8-21 | following redirects with the same session ends in a page that passes after at most two hops |
| `Middleware.Guard` | src/middleware.ts:8-26 | paths outside the matcher always pass; paths inside it get exactly the routing decision; a redirect never targets the path it came from |
| `Middleware.GuardRules` | src/middleware.ts:8-26 | what a request sees on each matched path: `/` goes to `/dashboard`; `/login` goes to `/dashboard` when signed in and passes otherwise; `/dashboard` and `/dashboard/...` pass when signed in and go to `/login` otherwise |
| `Middleware.LoginAndDashboardDisjoint` | src/middleware.ts:3 | a path under `/login` is never under `/dashboard`, so the first two rules cannot both apply |
| `FriendRequests.IncomingChannel` | src/components/FriendRequests.tsx:34-36 | the channel the list subscribes to contains no `:` |
| `FriendRequests.IncomingChannelIsPusherKey` | src/components/FriendRequests.tsx:35 | the channel is `toPusherKey` of the user's request key: `user__`, then the id made channel-safe, then `__incoming_friend_requests` |
| `FriendRequests.IncomingChannelInjective` | src/components/FriendRequests.tsx:35 | users whose ids hold no `:` never share a request channel |
| `FriendRequests.EventKeepsListPending` | src/components/FriendRequests.tsx:31 | appending a live event for a pending sender keeps every listed sender pending |
| `FriendRequests.OnFriendRequest` | src/components/FriendRequests.tsx:31 | the live event is appended at the end with no check for duplicates; `EventKeepsListPending` and `RepeatedEventDuplicates` state what that keeps and what it allows |
| `FriendRequests.RequestEventKeepsListPending` | src/components/FriendRequests.tsx:31 | if an event naming the requester of a successful friend request to the session user is delivered, appending it keeps a list of pending senders pending in the store the request left |
| `FriendRequests.RepeatedEventDuplicates` | src/components/FriendRequests.tsx:31 | there is no check for duplicates: the same event delivered twice adds two copies |
| `FriendRequests.RemoveSender` | src/components/FriendRequests.tsx:51-53 | no entry from the sender remains; every other entry stays as often as before and in the same order |
| `FriendRequests.Settle` | src/components/FriendRequests.tsx:47-59 | the store is the action's store; after a successful action no entry from the sender remains and every entry from anyone else is kept with its multiplicity; after a failing one the list is unchanged; the new list is a subsequence of the old |
| `FriendRequests.AcceptFriend` | src/components/FriendRequests.tsx:47-59 | the store is exactly the accept action's result; the list is unchanged when the accept fails and loses every entry from the sender when it succeeds; the list changes only when the accept succeeded, and then the sender is a friend and no longer pending |
| `FriendRequests.DenyFriend` | src/components/FriendRequests.tsx:61-73 | the store is exactly the deny action's result; the list is unchanged when the deny fails and loses every entry from the sender when it succeeds; the list changes only when the deny succeeded, and then the sender is no longer pending; friends are never touched |
| `FriendRequests.ButtonsKeepListPending` | src/components/FriendRequests.tsx:47-73 | if every listed sender is pending in the store before a button press, the same holds afterwards |
| `FriendRequests.Unbind` | src/components/FriendRequests.tsx:43 | the handler's binding is gone and every other binding is kept as often as before |
| `FriendRequests.Subscribe` | src/components/FriendRequests.tsx:34-37 | afterwards the channel is subscribed and the handler bound; every other channel is as before, and the bindings gain exactly one copy of that binding |
| `FriendRequests.Unsubscribe` | src/components/FriendRequests.tsx:40-43 | afterwards the channel is not subscribed and the handler not bound; every other channel and binding is as before |
| `FriendRequests.UnsubscribeUndoesSubscribe` | src/components/FriendRequests.tsx:34-43 | unsubscribing what was just subscribed restores the client exactly |
| `FriendRequests.Mount` | src/components/FriendRequests.tsx:34-37 | the effect subscribes to the user's request channel and binds the handler to the request event, and changes nothing else |
| `FriendRequests.Cleanup` | src/components/FriendRequests.tsx:39-44 | the cleanup removes that same channel and that same binding, and nothing else |
| `FriendRequests.CleanupUndoesMount` | src/components/FriendRequests.tsx:26-45 | cleanup after mount returns the client to exactly its pre-mount state |
| `SidebarChatList.OnPathnameChange` | src/components/SidebarChatList.tsx:21-27 | on a path containing "chat", every message whose sender id occurs in the path is dropped and the rest keep their order and multiplicity; with no path, or no "chat" in it, the list is unchanged |
| `SidebarChatList.ReplayShrinks` | src/components/SidebarChatList.tsx:21-27 | any series of path changes leaves a subsequence of the starting list, never a longer one |
| `SidebarChatList.UnseenStaysEmpty` | src/components/SidebarChatList.tsx:19 | starting empty and only ever filtered, the list stays empty, so every friend's count is 0 |
| `SidebarChatList.UnseenCount` | src/components/SidebarChatList.tsx:32-34 | the count is at most the list length, and it is positive exactly when some message comes from that friend |
| `SidebarChatList.TotalUnseenIgnoresOthers` | src/components/SidebarChatList.tsx:32-34 | removing one sender's messages leaves every other friend's count unchanged |
| `SidebarChatList.TotalUnseenBounded` | src/components/SidebarChatList.tsx:32-34 | the counts of distinct friends add up to at most the number of unseen messages |
| `SidebarChatList.BadgeCount` | src/components/SidebarChatList.tsx:32-34 | a friend without an id has count 0; the count is positive exactly when some message comes from that friend |
| `SidebarChatList.FriendEntry` | src/components/SidebarChatList.tsx:32-47 | the badge is shown exactly when some unseen message comes from that friend, and then shows that friend's unseen count, which lies between 1 and the list length; the entry shows the friend's name; the link equals the one the friend computes for the session user |
| `SidebarChatList.Entries` | src/components/SidebarChatList.tsx:31-52 | one entry per friend, in the order given (the sort of user objects changes nothing); `EntriesDistinctLinks` states that distinct friends get distinct links |
| `SidebarChatList.ChatLinkDeterminesFriend` | src/components/SidebarChatList.tsx:40 | for ids without `-`, a user's link to a friend determines that friend |
| `SidebarChatList.EntriesDistinctLinks` | src/components/SidebarChatList.tsx:31-40 | friends with distinct ids (none containing `-`) get distinct links in the list |
| `SidebarChatList.ChatLinkShared` | src/components/SidebarChatList.tsx:40 | the session user's link to a friend is the friend's link to the session user |
| `Seqs.Filter` | src/components/SidebarChatList.tsx:24 | `Array.prototype.filter`: only kept elements remain; each of them stays as often as before and in order |
| `Seqs.FilterPartition` | src/components/SidebarChatList.tsx:32-34 | the elements one predicate keeps and the elements its negation keeps together number the whole list |

## Left out

- `cn` (`src/lib/utils.ts:4-6`) is a wrapper over two styling libraries. It has no logic of its own.
- Authentication (`src/lib/auth.ts`) is not part of this model. The session enters each action as an optional user id, and the route guard gets a boolean.
- The REST lookup of an email's id is an HTTP call, and it is modelled as the email index map. A failed HTTP call is not modelled.
- Zod's schemas are not modelled. A payload is either already parsed or `Malformed`, and `Malformed` maps to `InvalidPayload`.
- The store writes (`sadd`, `srem`) are not awaited in the source. They are modelled as applied at once and in order, so races between them are not modelled. A write that fails is not modelled either: because nothing awaits it (src/lib/actions.ts:49, 76-78, 101), a rejected write does not reach the caller, and the component still filters the request out of its list (src/components/FriendRequests.tsx:51-53) even though the store did not change.
- Failures of the store reads are not modelled. The reads are HTTP calls: `sismember` and `smembers` (`src/helpers/friend.ts:5`, `:13`, `:17`), and the record `get` with `JSON.parse` (`:24`). A failed call or malformed JSON there throws out of the action or rejects the friends lookup. The model has no such outcome: every read returns what the store holds.
- Redis `smembers` returns set members in an unspecified order. `Friend.GetFriendsByUserId` picks an arbitrary order and states only what holds for every order.
- Rendering, toasts, `router.refresh()` and the UI-only components are not modelled: message list, chat input, add-friend button, toast, sidebar options, sign-out button, providers.
- Sending and storing messages is not modelled, nor any message log. The action the chat input imports is not defined in `src/lib/actions.ts`.
- Strings are sequences of characters. JavaScript compares strings by UTF-16 code units, which is this model's order when each character is one code unit. Unicode beyond that is not modelled.
- Middleware.Matched: the `matcher` patterns are approximated by the exact paths `/`, `/login` and `/dashboard`, and by any path under `/dashboard/`. Next.js's full path-pattern syntax is not modelled.
- The message timestamp is a JavaScript number. It is kept as an integer because nothing here computes with it.
- The initial friend-request list is the list the server renders (`src/components/FriendRequests.tsx:22-24`). The model takes it as the list that the reducer functions start from, and it has no member of its own.
- Actions.AcceptFriendRequest: the accept action does not clear a reverse pending request, so "pending" and "friends" can hold together. No contract claims they exclude each other.

=== FILE: actions.dfy ===
/** The friend-relationship server actions of `src/lib/actions.ts` as pure
    transitions on the store.

    Each action runs its checks in a fixed order and throws at the first one that
    fails; the store writes come only after the last check. An action therefore
    returns the store as it is after the call together with the error it threw,
    if any. */
module Actions {
  import opened Options
  import opened Db
  import Friend

  /** The errors the actions throw, in the words of their messages. */
  datatype Error =
    | InvalidPayload    // "Invalid request payload" (the input failed schema parsing)
    | Unauthorized      // "Unauthorized"
    | PersonNotFound    // "This person does not exist."
    | CannotAddSelf     // "Cannot add yourself as a friend."
    | AlreadyAdded      // "Already added this user."
    | AlreadyFriends    // "Already friends with this user."
    | NoFriendRequest   // "No friend request."

  /** An action's input after schema parsing. */
  datatype Payload<T> = Parsed(value: T) | Malformed

  /** The store after an action, and the error it threw (`None` on success). */
  datatype Outcome = Outcome(store: Store, error: Option<Error>)

  /** The signed-in user's id. `!session || !session.user?.id` rejects a missing
      session, a missing id and the empty id alike. */
  function SessionUser(session: Option<Id>): (r: Option<Id>)
    ensures r.Some? <==> session.Some? && session.value != ""
    ensures r.Some? ==> r == session
  {
    if session.Some? && session.value != "" then session else None
  }

  /** The id registered for an email address (`user:email:<email>`); the empty
      id is falsy in `!idToAdd` and counts as missing. */
  function ResolveEmail(st: Store, email: Email): (r: Option<Id>)
    ensures r.Some? <==> email in st.emailIndex && st.emailIndex[email] != ""
    ensures r.Some? ==> r.value == st.emailIndex[email]
  {
    if email in st.emailIndex && st.emailIndex[email] != "" then Some(st.emailIndex[email]) else None
  }

  // ---------------------------------------------------------------------------
  // Store writes (`sadd` / `srem`), each on one user's set
  // ---------------------------------------------------------------------------

  function AddIncoming(st: Store, owner: Id, sender: Id): Store
  {
    st.(incoming := st.incoming[owner := Incoming(st, owner) + {sender}])
  }

  function RemoveIncoming(st: Store, owner: Id, sender: Id): Store
  {
    st.(incoming := st.incoming[owner := Incoming(st, owner) - {sender}])
  }

  function AddFriend(st: Store, owner: Id, friend: Id): Store
  {
    st.(friends := st.friends[owner := Friends(st, owner) + {friend}])
  }

  // ---------------------------------------------------------------------------
  // createFriendeRequest
  // ---------------------------------------------------------------------------

  /** `createFriendeRequest(formData)`: the signed-in user asks the owner of an
      email address to become friends. */
  function CreateFriendRequest(st: Store, session: Option<Id>, form: Payload<Email>): (r: Outcome)
    // a failing call writes nothing
    ensures r.error.Some? ==> r.store == st
    // the checks, in the order they are made
    ensures form.Malformed? ==> r.error == Some(InvalidPayload)
    ensures form.Parsed? && SessionUser(session).None? ==> r.error == Some(Unauthorized)
    ensures form.Parsed? && SessionUser(session).Some? ==>
      var me, target := SessionUser(session).value, ResolveEmail(st, form.value);
      && (target.None? ==> r.error == Some(PersonNotFound))
      && (target.Some? && target.value == me ==> r.error == Some(CannotAddSelf))
      && (target.Some? && target.value != me && me in Incoming(st, target.value) ==>
            r.error == Some(AlreadyAdded))
      && ((target.Some? && target.value != me && me !in Incoming(st, target.value)
           && target.value in Friends(st, me)) ==> r.error == Some(AlreadyFriends))
    // the call succeeds exactly when every check passes
    ensures r.error.None? <==>
      && form.Parsed? && SessionUser(session).Some? && ResolveEmail(st, form.value).Some?
      && var me, target := SessionUser(session).value, ResolveEmail(st, form.value).value;
      && target != me && me !in Incoming(st, target) && target !in Friends(st, me)
    // on success exactly the requester joins the target's incoming set
    ensures r.error.None? ==>
      && form.Parsed? && SessionUser(session).Some? && ResolveEmail(st, form.value).Some?
      && var me, target := SessionUser(session).value, ResolveEmail(st, form.value).value;
      && target != me && me !in Incoming(st, target) && target !in Friends(st, me)
      && Incoming(r.store, target) == Incoming(st, target) + {me}
      && (forall u :: u != target ==> Incoming(r.store, u) == Incoming(st, u))
      && r.store.friends == st.friends
      && r.store.emailIndex == st.emailIndex
      && r.store.users == st.users
  {
    if form.Malformed? then Outcome(st, Some(InvalidPayload))
    else
      var target := ResolveEmail(st, form.value);
      var me := SessionUser(session);
      if me.None? then Outcome(st, Some(Unauthorized))
      else if target.None? then Outcome(st, Some(PersonNotFound))
      else if target.value == me.value then Outcome(st, Some(CannotAddSelf))
      else if Friend.IsAlreadyAdded(st, target.value, me.value) then Outcome(st, Some(AlreadyAdded))
      else if Friend.IsAlreadyFriends(st, target.value, me.value) then Outcome(st, Some(AlreadyFriends))
      else Outcome(AddIncoming(st, target.value, me.value), None)
  }

  // ---------------------------------------------------------------------------
  // acceptFriendRequest
  // ---------------------------------------------------------------------------

  /** `acceptFriendRequest(id)`: the signed-in user accepts the pending request
      from `id`. Only the accepter's own incoming set is cleaned; a pending
      request in the opposite direction is left where it is. */
  function AcceptFriendRequest(st: Store, session: Option<Id>, id: Payload<Id>): (r: Outcome)
    ensures r.error.Some? ==> r.store == st
    ensures id.Malformed? ==> r.error == Some(InvalidPayload)
    ensures id.Parsed? && SessionUser(session).None? ==> r.error == Some(Unauthorized)
    ensures id.Parsed? && SessionUser(session).Some? ==>
      var me, sender := SessionUser(session).value, id.value;
      && (sender in Friends(st, me) ==> r.error == Some(AlreadyFriends))
      && (sender !in Friends(st, me) && sender !in Incoming(st, me) ==> r.error == Some(NoFriendRequest))
    // the call succeeds exactly when every check passes
    ensures r.error.None? <==>
      && id.Parsed? && SessionUser(session).Some?
      && id.value !in Friends(st, SessionUser(session).value)
      && id.value in Incoming(st, SessionUser(session).value)
    // on success: each user is in the other's friends set, the request is gone,
    // and no other set changes
    ensures r.error.None? ==>
      && id.Parsed? && SessionUser(session).Some?
      && var me, sender := SessionUser(session).value, id.value;
      && sender !in Friends(st, me) && sender in Incoming(st, me)
      && Friends(r.store, me) == Friends(st, me) + {sender}
      && Friends(r.store, sender) == Friends(st, sender) + {me}
      && (forall u :: u != me && u != sender ==> Friends(r.store, u) == Friends(st, u))
      && Incoming(r.store, me) == Incoming(st, me) - {sender}
      && (forall u :: u != me ==> Incoming(r.store, u) == Incoming(st, u))
      && r.store.emailIndex == st.emailIndex
      && r.store.users == st.users
  {
    if id.Malformed? then Outcome(st, Some(InvalidPayload))
    else
      var sender := id.value;
      var me := SessionUser(session);
      if me.None? then Outcome(st, Some(Unauthorized))
      else if Friend.IsAlreadyFriends(st, sender, me.value) then Outcome(st, Some(AlreadyFriends))
      else if !Friend.IsAlreadyAdded(st, me.value, sender) then Outcome(st, Some(NoFriendRequest))
      else
        var st1 := AddFriend(st, me.value, sender);
        var st2 := AddFriend(st1, sender, me.value);
        Outcome(RemoveIncoming(st2, me.value, sender), None)
  }

  // ---------------------------------------------------------------------------
  // denyFriendRequest
  // ---------------------------------------------------------------------------

  /** `denyFriendRequest(id)`: the signed-in user drops the pending request from `id`. */
  function DenyFriendRequest(st: Store, session: Option<Id>, id: Payload<Id>): (r: Outcome)
    ensures r.error.Some? ==> r.store == st
    ensures id.Malformed? ==> r.error == Some(InvalidPayload)
    ensures id.Parsed? && SessionUser(session).None? ==> r.error == Some(Unauthorized)
    ensures id.Parsed? && SessionUser(session).Some? && id.value !in Incoming(st, SessionUser(session).value) ==>
      r.error == Some(NoFriendRequest)
    // the call succeeds exactly when every check passes
    ensures r.error.None? <==>
      id.Parsed? && SessionUser(session).Some? && id.value in Incoming(st, SessionUser(session).value)
    // on success only that request disappears; both friends sets are untouched
    ensures r.error.None? ==>
      && id.Parsed? && SessionUser(session).Some?
      && var me, sender := SessionUser(session).value, id.value;
      && sender in Incoming(st, me)
      && Incoming(r.store, me) == Incoming(st, me) - {sender}
      && (forall u :: u != me ==> Incoming(r.store, u) == Incoming(st, u))
      && r.store.friends == st.friends
      && r.store.emailIndex == st.emailIndex
      && r.store.users == st.users
  {
    if id.Malformed? then Outcome(st, Some(InvalidPayload))
    else
      var sender := id.value;
      var me := SessionUser(session);
      if me.None? then Outcome(st, Some(Unauthorized))
      else if !Friend.IsAlreadyAdded(st, me.value, sender) then Outcome(st, Some(NoFriendRequest))
      else Outcome(RemoveIncoming(st, me.value, sender), None)
  }

  // ---------------------------------------------------------------------------
  // Properties relating several calls
  // ---------------------------------------------------------------------------

  /** Without a signed-in user every well-formed call fails `Unauthorized` and
      changes nothing, whatever the store holds. */
  lemma UnauthorizedFirst(st: Store, session: Option<Id>, email: Email, id: Id)
    requires session.None? || session == Some("")
    ensures CreateFriendRequest(st, session, Parsed(email)) == Outcome(st, Some(Unauthorized))
    ensures AcceptFriendRequest(st, session, Parsed(id)) == Outcome(st, Some(Unauthorized))
    ensures DenyFriendRequest(st, session, Parsed(id)) == Outcome(st, Some(Unauthorized))
  {
  }

  /** Repeating a successful request fails `AlreadyAdded` and leaves the store as
      the first call left it, with the requester in the target's set. */
  lemma CreateTwiceFails(st: Store, session: Option<Id>, email: Email)
    requires CreateFriendRequest(st, session, Parsed(email)).error.None?
    ensures var st1 := CreateFriendRequest(st, session, Parsed(email)).store;
      && SessionUser(session).value in Incoming(st1, ResolveEmail(st, email).value)
      && CreateFriendRequest(st1, session, Parsed(email)) == Outcome(st1, Some(AlreadyAdded))
  {
    var st1 := CreateFriendRequest(st, session, Parsed(email)).store;
    assert ResolveEmail(st1, email) == ResolveEmail(st, email);
  }

  /** Creating a request keeps the store invariant. */
  lemma CreatePreservesValid(st: Store, session: Option<Id>, form: Payload<Email>)
    requires Valid(st)
    ensures Valid(CreateFriendRequest(st, session, form).store)
  {
    var r := CreateFriendRequest(st, session, form);
    if r.error.None? {
      var st' := r.store;
      forall u ensures u !in Incoming(st', u) && u !in Friends(st', u) {
        assert Friends(st', u) == Friends(st, u);
      }
      forall a, b | b in Friends(st', a) ensures a in Friends(st', b) {
        assert Friends(st', a) == Friends(st, a);
        assert Friends(st', b) == Friends(st, b);
      }
    }
  }

  /** Accepting a request keeps the store invariant: the friend relation stays
      symmetric, and no one becomes their own friend. */
  lemma AcceptPreservesValid(st: Store, session: Option<Id>, id: Payload<Id>)
    requires Valid(st)
    ensures Valid(AcceptFriendRequest(st, session, id).store)
  {
    var r := AcceptFriendRequest(st, session, id);
    if r.error.None? {
      var st' := r.store;
      var me, sender := SessionUser(session).value, id.value;
      assert sender != me;
      forall u ensures u !in Incoming(st', u) && u !in Friends(st', u) {
        if u != me && u != sender {
          assert Friends(st', u) == Friends(st, u);
        }
      }
      forall a, b | b in Friends(st', a) ensures a in Friends(st', b) {
        if a != me && a != sender {
          assert b in Friends(st, a);
          if b != me && b != sender {
            assert Friends(st', b) == Friends(st, b);
          }
        }
        if a == me && b != sender {
          assert b in Friends(st, a);
        }
        if a == sender && b != me {
          assert b in Friends(st, a);
        }
      }
    }
  }

  /** Denying a request keeps the store invariant. */
  lemma DenyPreservesValid(st: Store, session: Option<Id>, id: Payload<Id>)
    requires Valid(st)
    ensures Valid(DenyFriendRequest(st, session, id).store)
  {
    var r := DenyFriendRequest(st, session, id);
    if r.error.None? {
      var st' := r.store;
      forall u ensures u !in Incoming(st', u) && u !in Friends(st', u) {
        assert Friends(st', u) == Friends(st, u);
      }
      forall a, b | b in Friends(st', a) ensures a in Friends(st', b) {
        assert Friends(st', a) == Friends(st, a);
        assert Friends(st', b) == Friends(st, b);
      }
    }
  }

  /** A fresh store: "u1" and "u2" are registered, nothing else is stored. */
  function TwoUsers(): Store
  {
    Store(map[], map[], map["u1@mail" := "u1", "u2@mail" := "u2"], map[])
  }

  /** "u1" asks "u2", then "u2" accepts: they are each other's only friend and
      "u2" has no pending request left. */
  lemma RequestThenAccept()
    ensures var st1 := CreateFriendRequest(TwoUsers(), Some("u1"), Parsed("u2@mail"));
      && st1.error.None? && Incoming(st1.store, "u2") == {"u1"}
      && var st2 := AcceptFriendRequest(st1.store, Some("u2"), Parsed("u1"));
      && st2.error.None?
      && Friends(st2.store, "u1") == {"u2"} && Friends(st2.store, "u2") == {"u1"}
      && Incoming(st2.store, "u2") == {}
  {
    var st1 := CreateFriendRequest(TwoUsers(), Some("u1"), Parsed("u2@mail"));
    assert ResolveEmail(TwoUsers(), "u2@mail") == Some("u2");
    assert st1.error.None?;
  }

  /** "u1" asks "u2", then "u2" denies: the request is gone and no friendship
      exists. */
  lemma RequestThenDeny()
    ensures var st1 := CreateFriendRequest(TwoUsers(), Some("u1"), Parsed("u2@mail"));
      && st1.error.None?
      && var st2 := DenyFriendRequest(st1.store, Some("u2"), Parsed("u1"));
      && st2.error.None?
      && Incoming(st2.store, "u2") == {}
      && Friends(st2.store, "u1") == {} && Friends(st2.store, "u2") == {}
  {
    var st1 := CreateFriendRequest(TwoUsers(), Some("u1"), Parsed("u2@mail"));
    assert ResolveEmail(TwoUsers(), "u2@mail") == Some("u2");
    assert st1.error.None?;
  }

  /** Pending and friends are not mutually exclusive: when "u1" and "u2" have
      asked each other and "u2" accepts, "u1" still holds the request from
      "u2" although the two are now friends. */
  lemma AcceptLeavesReverseRequest()
    ensures var st0 := Store(map["u1" := {"u2"}, "u2" := {"u1"}], map[], map[], map[]);
      var r := AcceptFriendRequest(st0, Some("u2"), Parsed("u1"));
      && r.error.None?
      && "u2" in Incoming(r.store, "u1")
      && "u2" in Friends(r.store, "u1")
  {
  }
}

=== FILE: db.dfy ===
/** The parts of the Redis store that the friend-relationship logic reads and
    writes, viewed per user rather than per key.

    In Redis, `user:<id>:incoming_friend_requests` and `user:<id>:friends` hold
    sets of user ids, `user:email:<email>` holds the id registered for an email
    address, and `user:<id>` holds the JSON user record. A key that does not
    exist behaves as an empty set, which `Incoming` and `Friends` reproduce. */
module Db {
  import opened Options

  type Id = string
  type Email = string

  /** A stored user record (the fields of the authentication library's `User`
      that the core reads). */
  datatype User = User(id: Option<Id>, name: string, email: string)

  datatype Store = Store(
    incoming: map<Id, set<Id>>,
    friends: map<Id, set<Id>>,
    emailIndex: map<Email, Id>,
    users: map<Id, User>)

  /** Ids of the users who have a pending friend request to `u`. */
  function Incoming(st: Store, u: Id): set<Id>
  {
    if u in st.incoming then st.incoming[u] else {}
  }

  /** Ids stored as friends of `u`. */
  function Friends(st: Store, u: Id): set<Id>
  {
    if u in st.friends then st.friends[u] else {}
  }

  /** `JSON.parse(await get("user:<id>"))`: the stored record, or `null` when the
      key is absent (`JSON.parse(null)` is `null`). */
  function UserRecord(st: Store, u: Id): Option<User>
  {
    if u in st.users then Some(st.users[u]) else None
  }

  /** The friend relation is symmetric: the two membership facts of a friendship
      are both present or both absent. */
  ghost predicate FriendsSymmetric(st: Store)
  {
    forall a, b :: b in Friends(st, a) ==> a in Friends(st, b)
  }

  /** Nobody has a pending request from themselves, and nobody is their own friend. */
  ghost predicate NoSelfLinks(st: Store)
  {
    forall u :: u !in Incoming(st, u) && u !in Friends(st, u)
  }

  /** The store invariant that the three friend actions keep. */
  ghost predicate Valid(st: Store)
  {
    FriendsSymmetric(st) && NoSelfLinks(st)
  }

  // ---------------------------------------------------------------------------
  // Redis keys
  // ---------------------------------------------------------------------------

  const IncomingSuffix: string := ":incoming_friend_requests"
  const FriendsSuffix: string := ":friends"

  function IncomingKey(u: Id): string
  {
    "user:" + u + IncomingSuffix
  }

  function FriendsKey(u: Id): string
  {
    "user:" + u + FriendsSuffix
  }

  /** Different users' request and friend sets live under different keys, and no
      request key is a friends key, so the per-user view loses nothing. */
  lemma RedisKeysDistinct(a: Id, b: Id)
    ensures IncomingKey(a) == IncomingKey(b) ==> a == b
    ensures FriendsKey(a) == FriendsKey(b) ==> a == b
    ensures IncomingKey(a) != FriendsKey(b)
  {
    var ia, ib, fa, fb := IncomingKey(a), IncomingKey(b), FriendsKey(a), FriendsKey(b);
    if ia == ib {
      assert a == ia[5..|ia| - |IncomingSuffix|];
    }
    if fa == fb {
      assert a == fa[5..|fa| - |FriendsSuffix|];
    }
    // The last eight characters are "requests" in one key and ":friends" in the other.
    assert ia[|ia| - 8] == 'r';
    assert FriendsKey(b)[|FriendsKey(b)| - 8] == ':';
  }

  /** `IncomingKey` and `FriendsKey` are injective, and their images are disjoint. */
  lemma KeysInjective()
    ensures forall a, b :: IncomingKey(a) == IncomingKey(b) ==> a == b
    ensures forall a, b :: FriendsKey(a) == FriendsKey(b) ==> a == b
    ensures forall a, b :: IncomingKey(a) != FriendsKey(b)
  {
    forall a, b ensures IncomingKey(a) == IncomingKey(b) ==> a == b {
      RedisKeysDistinct(a, b);
    }
    forall a, b ensures FriendsKey(a) == FriendsKey(b) ==> a == b {
      RedisKeysDistinct(a, b);
    }
    forall a, b ensures IncomingKey(a) != FriendsKey(b) {
      RedisKeysDistinct(a, b);
    }
  }

  /** A per-user map of sets moved under string keys by an injective naming scheme. */
  function Rekey(m: map<Id, set<Id>>, key: Id -> string): map<string, set<Id>>
    requires forall a, b :: key(a) == key(b) ==> a == b
  {
    map u | u in m :: key(u) := m[u]
  }

  /** Under an injective naming scheme, each user's key is present exactly when
      the user is, it holds that user's set, and no other key is present. */
  lemma RekeyLookup(m: map<Id, set<Id>>, key: Id -> string, u: Id)
    requires forall a, b :: key(a) == key(b) ==> a == b
    ensures key(u) in Rekey(m, key) <==> u in m
    ensures u in m ==> Rekey(m, key)[key(u)] == m[u]
    ensures forall k :: k in Rekey(m, key) ==> exists v :: v in m && key(v) == k
  {
  }

  /** The store as Redis holds it: one flat key space of sets, with each user's
      request set under `IncomingKey` and friends set under `FriendsKey`. */
  function SetKeyspace(st: Store): map<string, set<Id>>
  {
    KeysInjective();
    Rekey(st.incoming, IncomingKey) + Rekey(st.friends, FriendsKey)
  }

  /** Redis `sismember key member`: false when the key does not exist. */
  predicate SIsMember(keyspace: map<string, set<Id>>, key: string, member: Id)
  {
    key in keyspace && member in keyspace[key]
  }

  /** Reading a user's request set through its Redis key gives `Incoming`. */
  lemma IncomingThroughKey(st: Store, u: Id, m: Id)
    ensures SIsMember(SetKeyspace(st), IncomingKey(u), m) <==> m in Incoming(st, u)
  {
    KeysInjective();
    RekeyLookup(st.incoming, IncomingKey, u);
    RekeyLookup(st.friends, FriendsKey, u);
    assert IncomingKey(u) !in Rekey(st.friends, FriendsKey);
  }

  /** Reading a user's friends set through its Redis key gives `Friends`. */
  lemma FriendsThroughKey(st: Store, u: Id, m: Id)
    ensures SIsMember(SetKeyspace(st), FriendsKey(u), m) <==> m in Friends(st, u)
  {
    KeysInjective();
    RekeyLookup(st.friends, FriendsKey, u);
  }
}

=== FILE: friend.dfy ===
/** The read-only friend queries of `src/helpers/friend.ts`. Each is a function
    of the store, so none of them can change it. */
module Friend {
  import opened Options
  import opened Db

  /** `isAlreadyAdded(idToAdd, userId)`: whether `userId` has a pending request
      to `idToAdd`, which Redis answers with `sismember` on the key
      `user:<idToAdd>:incoming_friend_requests`. */
  function IsAlreadyAdded(st: Store, idToAdd: Id, userId: Id): bool
  {
    userId in Incoming(st, idToAdd)
  }

  /** `isAlreadyFriends(idToAdd, userId)`: whether `idToAdd` is stored as a
      friend of `userId`, which Redis answers with `sismember` on the key
      `user:<userId>:friends` only; the opposite membership fact is not consulted. */
  function IsAlreadyFriends(st: Store, idToAdd: Id, userId: Id): bool
  {
    idToAdd in Friends(st, userId)
  }

  /** `isAlreadyAdded` answers what `sismember` on the request key answers in
      the Redis key space. */
  lemma IsAlreadyAddedIsSIsMember(st: Store, idToAdd: Id, userId: Id)
    ensures IsAlreadyAdded(st, idToAdd, userId) <==> SIsMember(SetKeyspace(st), IncomingKey(idToAdd), userId)
  {
    IncomingThroughKey(st, idToAdd, userId);
  }

  /** `isAlreadyFriends` answers what `sismember` on `userId`'s friends key
      answers in the Redis key space. */
  lemma IsAlreadyFriendsIsSIsMember(st: Store, idToAdd: Id, userId: Id)
    ensures IsAlreadyFriends(st, idToAdd, userId) <==> SIsMember(SetKeyspace(st), FriendsKey(userId), idToAdd)
  {
    FriendsThroughKey(st, userId, idToAdd);
  }

  /** On a store whose friend relation is symmetric, the one-directional check
      gives the same answer whichever way round it is asked. */
  lemma IsAlreadyFriendsSymmetric(st: Store, a: Id, b: Id)
    requires FriendsSymmetric(st)
    ensures IsAlreadyFriends(st, a, b) == IsAlreadyFriends(st, b, a)
  {
  }

  /** Without symmetry the check is one-directional: here "x" is in the friends
      set of "u" but not the other way round. */
  lemma IsAlreadyFriendsOneDirection()
    ensures var st := Store(map[], map["u" := {"x"}], map[], map[]);
      IsAlreadyFriends(st, "x", "u") && !IsAlreadyFriends(st, "u", "x")
  {
  }

  /** `getFriendsByUserId(userId)`: `smembers` on the friends set, in whatever
      order Redis returns it (here: an arbitrary enumeration without repeats),
      then one record lookup per id, keeping that order. `ids` is the order the
      members came back in; `friends[i]` is the record stored for `ids[i]`,
      `None` when that record is missing. */
  method GetFriendsByUserId(st: Store, userId: Id) returns (ids: seq<Id>, friends: seq<Option<User>>)
    ensures |ids| == |friends| == |Friends(st, userId)|
    ensures forall i, j :: 0 <= i < j < |ids| ==> ids[i] != ids[j]
    ensures forall x :: x in ids <==> x in Friends(st, userId)
    ensures forall i :: 0 <= i < |ids| ==> friends[i] == UserRecord(st, ids[i])
  {
    var all := Friends(st, userId);
    var rest := all;
    ids, friends := [], [];
    while rest != {}
      invariant rest <= all
      invariant forall x :: x in ids <==> x in all && x !in rest
      invariant forall i, j :: 0 <= i < j < |ids| ==> ids[i] != ids[j]
      invariant |ids| + |rest| == |all|
      invariant |friends| == |ids|
      invariant forall i :: 0 <= i < |ids| ==> friends[i] == UserRecord(st, ids[i])
      decreases rest
    {
      var x :| x in rest;
      ids := ids + [x];
      friends := friends + [UserRecord(st, x)];
      rest := rest - {x};
    }
  }
}

=== FILE: friend_requests.dfy ===
/** The state of the friend-request list component
    (`src/components/FriendRequests.tsx`): the list of pending requests, how live
    events and accept/deny responses update it, and the channel subscription it
    holds while mounted. Rendering is not modelled. */
module FriendRequests {
  import opened Options
  import opened Seqs
  import opened Db
  import Utils
  import Actions

  /** One row of the list: who sent the request, and their email for display. */
  datatype IncomingFriendRequest = IncomingFriendRequest(senderId: Id, senderEmail: string)

  /** The event name the component binds its handler to. */
  const IncomingEvent: string := "incoming_friend_requests"

  /** The channel the component subscribes to, `toPusherKey` of the user's
      incoming-request store key, written in closed form: the fixed parts of the
      key hold no `:` except the two around the id, so only the id is rewritten
      (`IncomingChannelIsPusherKey`). */
  function IncomingChannel(sessionId: Id): (c: string)
    ensures ':' !in c
  {
    "user__" + Utils.ToPusherKey(sessionId) + "__incoming_friend_requests"
  }

  /** The closed form is exactly the channel name the component computes from
      the store key. */
  lemma IncomingChannelIsPusherKey(sessionId: Id)
    ensures IncomingChannel(sessionId) == Utils.ToPusherKey(IncomingKey(sessionId))
  {
    IncomingKeyParts(sessionId);
    KeyOfColonFreeParts("user", sessionId, "incoming_friend_requests");
    ChannelParts(Utils.ToPusherKey(sessionId));
  }

  /** Users with different ids, without `:` in them, subscribe to different channels. */
  lemma IncomingChannelInjective(a: Id, b: Id)
    requires ':' !in a && ':' !in b
    requires IncomingChannel(a) == IncomingChannel(b)
    ensures a == b
  {
    Utils.ToPusherKeyNoColon(a);
    Utils.ToPusherKeyNoColon(b);
    var ca, cb := IncomingChannel(a), IncomingChannel(b);
    assert a == ca[6..|ca| - 26];
    assert b == cb[6..|cb| - 26];
  }

  lemma IncomingKeyParts(sessionId: Id)
    ensures IncomingKey(sessionId) == "user" + ":" + sessionId + ":" + "incoming_friend_requests"
  {
  }

  lemma ChannelParts(t: string)
    ensures "user" + "__" + t + "__" + "incoming_friend_requests" == "user__" + t + "__incoming_friend_requests"
  {
  }

  lemma KeyOfColonFreeParts(head: string, id: string, tail: string)
    requires ':' !in head && ':' !in tail
    ensures Utils.ToPusherKey(head + ":" + id + ":" + tail) == head + "__" + Utils.ToPusherKey(id) + "__" + tail
  {
    Utils.ToPusherKeyNoColon(head);
    Utils.ToPusherKeyNoColon(tail);
    Utils.ToPusherKeyJoin(head, id);
    Utils.ToPusherKeyJoin(head + ":" + id, tail);
  }

  // ---------------------------------------------------------------------------
  // The list reducer
  // ---------------------------------------------------------------------------

  /** The live-event handler: the request is appended at the end, with no check
      for an entry already present. */
  function OnFriendRequest(prev: seq<IncomingFriendRequest>, event: IncomingFriendRequest): (next: seq<IncomingFriendRequest>)
    ensures |next| == |prev| + 1
    ensures next[..|prev|] == prev && next[|prev|] == event
  {
    prev + [IncomingFriendRequest(event.senderId, event.senderEmail)]
  }

  /** Delivering the same event twice leaves two copies of it in the list. */
  lemma RepeatedEventDuplicates(prev: seq<IncomingFriendRequest>, event: IncomingFriendRequest)
    ensures var next := OnFriendRequest(OnFriendRequest(prev, event), event);
      multiset(next)[event] == multiset(prev)[event] + 2
  {
    var once := OnFriendRequest(prev, event);
    assert once == prev + [event];
    assert OnFriendRequest(once, event) == once + [event];
  }

  /** A live event for a sender who is pending keeps every listed sender pending. */
  lemma EventKeepsListPending(st: Store, me: Id, prev: seq<IncomingFriendRequest>, event: IncomingFriendRequest)
    requires ListedArePending(st, me, prev)
    requires event.senderId in Incoming(st, me)
    ensures ListedArePending(st, me, OnFriendRequest(prev, event))
  {
    var next := OnFriendRequest(prev, event);
    forall i | 0 <= i < |next| ensures next[i].senderId in Incoming(st, me) {
      if i < |prev| {
        assert next[i] == prev[i];
      }
    }
  }

  /** If, after a successful request to `me`, an event naming the requester is
      delivered (the request itself publishes nothing), appending it to a list
      of pending senders leaves a list that still shows only pending senders
      in the store the request left. */
  lemma RequestEventKeepsListPending(st: Store, session: Option<Id>, email: Email, me: Id,
                                     prev: seq<IncomingFriendRequest>, senderEmail: string)
    requires ListedArePending(st, me, prev)
    requires Actions.CreateFriendRequest(st, session, Actions.Parsed(email)).error.None?
    requires Actions.ResolveEmail(st, email) == Some(me)
    ensures var r := Actions.CreateFriendRequest(st, session, Actions.Parsed(email));
      var event := IncomingFriendRequest(Actions.SessionUser(session).value, senderEmail);
      ListedArePending(r.store, me, OnFriendRequest(prev, event))
  {
    var r := Actions.CreateFriendRequest(st, session, Actions.Parsed(email));
    assert Incoming(st, me) <= Incoming(r.store, me);
    EventKeepsListPending(r.store, me, prev, IncomingFriendRequest(Actions.SessionUser(session).value, senderEmail));
  }

  /** `prev.filter((request) => request.senderId !== senderId)`: every entry from
      `senderId` is dropped; every other entry stays, as often as before and in
      the same order. */
  function RemoveSender(prev: seq<IncomingFriendRequest>, senderId: Id): (next: seq<IncomingFriendRequest>)
    ensures forall i :: 0 <= i < |next| ==> next[i].senderId != senderId
    ensures forall q: IncomingFriendRequest :: q.senderId != senderId ==> multiset(next)[q] == multiset(prev)[q]
    ensures IsSubsequence(next, prev)
  {
    Filter(prev, (q: IncomingFriendRequest) => q.senderId != senderId)
  }

  /** The state the component and the store are in after a button press. */
  datatype Exchange = Exchange(store: Store, requests: seq<IncomingFriendRequest>)

  /** The list update after an action on `senderId` returned: filtered when the
      action succeeded, untouched when it threw. */
  function Settle(prev: seq<IncomingFriendRequest>, senderId: Id, outcome: Actions.Outcome): (e: Exchange)
    ensures e.store == outcome.store
    ensures outcome.error.Some? ==> e.requests == prev
    ensures outcome.error.None? ==> forall i :: 0 <= i < |e.requests| ==> e.requests[i].senderId != senderId
    ensures outcome.error.None? ==>
      forall q: IncomingFriendRequest :: q.senderId != senderId ==> multiset(e.requests)[q] == multiset(prev)[q]
    ensures IsSubsequence(e.requests, prev)
  {
    SubsequenceReflexive(prev);
    if outcome.error.None? then Exchange(outcome.store, RemoveSender(prev, senderId))
    else Exchange(outcome.store, prev)
  }

  /** `acceptFriend(senderId)`: the server action, then the list update. */
  function AcceptFriend(st: Store, session: Option<Id>, prev: seq<IncomingFriendRequest>, senderId: Id): (e: Exchange)
    ensures var me := Actions.SessionUser(session);
      e.requests != prev ==> me.Some? && senderId in Friends(e.store, me.value) && senderId !in Incoming(e.store, me.value)
    ensures var r := Actions.AcceptFriendRequest(st, session, Actions.Parsed(senderId));
      && e.store == r.store
      && (r.error.Some? ==> e.requests == prev)
      && (r.error.None? ==> forall i :: 0 <= i < |e.requests| ==> e.requests[i].senderId != senderId)
  {
    Settle(prev, senderId, Actions.AcceptFriendRequest(st, session, Actions.Parsed(senderId)))
  }

  /** `denyFriend(senderId)`: the server action, then the list update. */
  function DenyFriend(st: Store, session: Option<Id>, prev: seq<IncomingFriendRequest>, senderId: Id): (e: Exchange)
    ensures var me := Actions.SessionUser(session);
      e.requests != prev ==> me.Some? && senderId !in Incoming(e.store, me.value)
    ensures e.store.friends == st.friends
    ensures var r := Actions.DenyFriendRequest(st, session, Actions.Parsed(senderId));
      && e.store == r.store
      && (r.error.Some? ==> e.requests == prev)
      && (r.error.None? ==> forall i :: 0 <= i < |e.requests| ==> e.requests[i].senderId != senderId)
  {
    Settle(prev, senderId, Actions.DenyFriendRequest(st, session, Actions.Parsed(senderId)))
  }

  /** Every listed sender has a pending request to `me` in the store. */
  ghost predicate ListedArePending(st: Store, me: Id, requests: seq<IncomingFriendRequest>)
  {
    forall i :: 0 <= i < |requests| ==> requests[i].senderId in Incoming(st, me)
  }

  /** If the list shows only pending requests before a button press, it still
      does afterwards, whether the action succeeded or failed. */
  lemma ButtonsKeepListPending(st: Store, sessionId: Id, prev: seq<IncomingFriendRequest>, senderId: Id)
    requires ListedArePending(st, sessionId, prev)
    ensures var e := AcceptFriend(st, Some(sessionId), prev, senderId);
      ListedArePending(e.store, sessionId, e.requests)
    ensures var e := DenyFriend(st, Some(sessionId), prev, senderId);
      ListedArePending(e.store, sessionId, e.requests)
  {
    var accept := Actions.AcceptFriendRequest(st, Some(sessionId), Actions.Parsed(senderId));
    var deny := Actions.DenyFriendRequest(st, Some(sessionId), Actions.Parsed(senderId));
    if accept.error.None? {
      var next := RemoveSender(prev, senderId);
      forall i | 0 <= i < |next| ensures next[i].senderId in Incoming(accept.store, sessionId) {
        assert next[i] in multiset(next);
        assert next[i] in multiset(prev);
        var k :| 0 <= k < |prev| && prev[k] == next[i];
      }
    }
    if deny.error.None? {
      var next := RemoveSender(prev, senderId);
      forall i | 0 <= i < |next| ensures next[i].senderId in Incoming(deny.store, sessionId) {
        assert next[i] in multiset(next);
        assert next[i] in multiset(prev);
        var k :| 0 <= k < |prev| && prev[k] == next[i];
      }
    }
  }

  // ---------------------------------------------------------------------------
  // Subscription on mount, removal on cleanup
  // ---------------------------------------------------------------------------

  /** A handler bound to an event name; handlers are told apart by identity. */
  datatype Binding = Binding(event: string, handler: nat)

  /** The realtime client's state: subscribed channels and bound handlers. */
  datatype Client = Client(channels: set<string>, bindings: seq<Binding>)

  /** `unbind(event, handler)` drops every binding of that handler to that event. */
  function Unbind(bindings: seq<Binding>, b: Binding): (r: seq<Binding>)
    ensures b !in r
    ensures forall x :: x != b ==> multiset(r)[x] == multiset(bindings)[x]
  {
    Filter(bindings, Other(b))
  }

  /** Accepts every binding except `b`. */
  function Other(b: Binding): Binding -> bool
  {
    (x: Binding) => x != b
  }

  /** `subscribe(channel)` followed by `bind(event, handler)`. */
  function Subscribe(c: Client, channel: string, b: Binding): (c': Client)
    ensures channel in c'.channels && b in c'.bindings
    // nothing else changes: the other channels stay as they were, and the
    // bindings gain exactly one copy of `b`
    ensures forall ch :: ch != channel ==> (ch in c'.channels <==> ch in c.channels)
    ensures multiset(c'.bindings) == multiset(c.bindings) + multiset{b}
  {
    Client(c.channels + {channel}, c.bindings + [b])
  }

  /** `unsubscribe(channel)` followed by `unbind(event, handler)`. */
  function Unsubscribe(c: Client, channel: string, b: Binding): (c': Client)
    ensures channel !in c'.channels && b !in c'.bindings
    // nothing else changes: the other channels and bindings stay as they were
    ensures forall ch :: ch != channel ==> (ch in c'.channels <==> ch in c.channels)
    ensures forall x :: x != b ==> multiset(c'.bindings)[x] == multiset(c.bindings)[x]
  {
    Client(c.channels - {channel}, Unbind(c.bindings, b))
  }

  /** Unsubscribing what was just subscribed restores a client that held
      neither the channel nor the binding. */
  lemma UnsubscribeUndoesSubscribe(c: Client, channel: string, b: Binding)
    requires channel !in c.channels && b !in c.bindings
    ensures Unsubscribe(Subscribe(c, channel, b), channel, b) == c
  {
    var keep := Other(b);
    assert (c.channels + {channel}) - {channel} == c.channels;
    FilterAppend(c.bindings, [b], keep);
    FilterKeepsAll(c.bindings, keep);
    assert Filter([b], keep) == [] by {
      assert !keep(b);
      assert [b][1..] == [];
    }
    assert Unbind(c.bindings + [b], b) == c.bindings;
  }

  /** The effect body: subscribe to the user's channel, bind the handler. */
  function Mount(c: Client, sessionId: Id, handler: nat): (c': Client)
    ensures IncomingChannel(sessionId) in c'.channels
    ensures Binding(IncomingEvent, handler) in c'.bindings
    ensures forall ch :: ch != IncomingChannel(sessionId) ==> (ch in c'.channels <==> ch in c.channels)
    ensures multiset(c'.bindings) == multiset(c.bindings) + multiset{Binding(IncomingEvent, handler)}
  {
    Subscribe(c, IncomingChannel(sessionId), Binding(IncomingEvent, handler))
  }

  /** The effect cleanup: unsubscribe the same channel, unbind the same handler. */
  function Cleanup(c: Client, sessionId: Id, handler: nat): (c': Client)
    ensures IncomingChannel(sessionId) !in c'.channels
    ensures Binding(IncomingEvent, handler) !in c'.bindings
    ensures forall ch :: ch != IncomingChannel(sessionId) ==> (ch in c'.channels <==> ch in c.channels)
    ensures forall x :: x != Binding(IncomingEvent, handler) ==> multiset(c'.bindings)[x] == multiset(c.bindings)[x]
  {
    Unsubscribe(c, IncomingChannel(sessionId), Binding(IncomingEvent, handler))
  }

  /** Cleanup undoes mount: when the channel was not subscribed and the handler
      not bound before, the client returns to exactly its pre-mount state. */
  lemma CleanupUndoesMount(c: Client, sessionId: Id, handler: nat)
    requires IncomingChannel(sessionId) !in c.channels
    requires Binding(IncomingEvent, handler) !in c.bindings
    ensures Cleanup(Mount(c, sessionId, handler), sessionId, handler) == c
  {
    UnsubscribeUndoesSubscribe(c, IncomingChannel(sessionId), Binding(IncomingEvent, handler));
  }
}

=== FILE: middleware.dfy ===
/** The route guard of `src/middleware.ts`: three ordered redirect rules over the
    request path and whether the request carries an authenticated session. */
module Middleware {
  import opened Strings

  datatype Decision = Pass | Redirect(target: string)

  /** Paths that need a signed-in user. */
  const SensitiveRoutes: seq<string> := ["/dashboard"]

  predicate IsSensitive(pathname: string)
  {
    exists i :: 0 <= i < |SensitiveRoutes| && StartsWith(pathname, SensitiveRoutes[i])
  }

  /** A path under `/login` is never under `/dashboard`, and the other way round. */
  lemma LoginAndDashboardDisjoint(pathname: string)
    ensures StartsWith(pathname, "/login") ==> !StartsWith(pathname, "/dashboard") && pathname != "/dashboard"
    ensures StartsWith(pathname, "/dashboard") ==> pathname != "/login"
  {
    if StartsWith(pathname, "/login") {
      assert pathname[1] == "/login"[1] == 'l';
    }
    if StartsWith(pathname, "/dashboard") {
      assert pathname[1] == "/dashboard"[1] == 'd';
    }
  }

  /** The handler body: the first rule that matches decides. */
  function Route(pathname: string, authed: bool): (d: Decision)
    ensures d.Redirect? ==> d.target != pathname
    ensures d.Redirect? ==> d.target == "/dashboard" || d.target == "/login"
  {
    LoginAndDashboardDisjoint(pathname);
    if StartsWith(pathname, "/login") && authed then Redirect("/dashboard")
    else if IsSensitive(pathname) && !authed then Redirect("/login")
    else if pathname == "/" then Redirect("/dashboard")
    else Pass
  }

  /** The `matcher` configuration: `/`, `/login`, and `/dashboard` with any
      further path segments. */
  predicate Matched(pathname: string)
  {
    pathname == "/" || pathname == "/login" || pathname == "/dashboard" || StartsWith(pathname, "/dashboard/")
  }

  /** What a request sees: paths outside the matcher never reach the handler. */
  function Guard(pathname: string, authed: bool): (d: Decision)
    ensures !Matched(pathname) ==> d == Pass
    ensures Matched(pathname) ==> d == Route(pathname, authed)
    ensures d.Redirect? ==> d.target != pathname
  {
    if Matched(pathname) then Route(pathname, authed) else Pass
  }

  /** What each path the matcher admits sees, with and without a session. */
  lemma GuardRules(pathname: string, authed: bool)
    ensures pathname == "/" ==> Guard(pathname, authed) == Redirect("/dashboard")
    ensures pathname == "/login" ==>
      Guard(pathname, authed) == (if authed then Redirect("/dashboard") else Pass)
    ensures (pathname == "/dashboard" || StartsWith(pathname, "/dashboard/")) ==>
      Guard(pathname, authed) == (if authed then Pass else Redirect("/login"))
  {
    if StartsWith(pathname, "/dashboard/") {
      assert pathname[..|"/dashboard"|] == "/dashboard/"[..|"/dashboard"|];
      assert StartsWith(pathname, "/dashboard");
    }
    if pathname == "/login" {
      assert StartsWith(pathname, "/login");
    }
    if pathname == "/dashboard" {
      assert StartsWith(pathname, "/dashboard");
    }
    RouteRules(pathname, authed);
  }

  /** Each rule, and the two combinations that pass through. */
  lemma RouteRules(pathname: string, authed: bool)
    ensures authed && StartsWith(pathname, "/login") ==> Route(pathname, authed) == Redirect("/dashboard")
    ensures !authed && StartsWith(pathname, "/dashboard") ==> Route(pathname, authed) == Redirect("/login")
    ensures pathname == "/" ==> Route(pathname, authed) == Redirect("/dashboard")
    ensures !authed && StartsWith(pathname, "/login") ==> Route(pathname, authed) == Pass
    ensures authed && StartsWith(pathname, "/dashboard") ==> Route(pathname, authed) == Pass
  {
    if StartsWith(pathname, "/dashboard") {
      assert StartsWith(pathname, SensitiveRoutes[0]);
    }
    LoginAndDashboardDisjoint(pathname);
  }

  /** Every path that reaches no rule passes, and only those. */
  lemma RoutePassExactly(pathname: string, authed: bool)
    ensures Route(pathname, authed) == Pass <==>
      && !(authed && StartsWith(pathname, "/login"))
      && !(!authed && StartsWith(pathname, "/dashboard"))
      && pathname != "/"
  {
    RouteRules(pathname, authed);
  }

  /** Following a redirect with the same session ends in at most two hops: `/`
      goes to `/dashboard`, which sends an unauthenticated request on to `/login`,
      where it passes. */
  lemma RedirectsSettle(pathname: string, authed: bool)
    ensures var d := Route(pathname, authed);
      d.Redirect? ==>
        var d2 := Route(d.target, authed);
        d2 == Pass || (d2.Redirect? && Route(d2.target, authed) == Pass)
  {
    RouteRules("/dashboard", authed);
    RouteRules("/login", authed);
  }
}

=== FILE: options.dfy ===
/** An optional value: the model's stand-in for JavaScript's `null` / `undefined`. */
module Options {

  datatype Option<+T> = None | Some(value: T) {

    /** The wrapped value, or `default` when there is none (JavaScript's `??`). */
    function GetOr(default: T): T
    {
      match this
      case Some(v) => v
      case None => default
    }
  }
}

=== FILE: seqs.dfy ===
/** Sequence helpers shared by the client-side list reducers. */
module Seqs {

  /** `sub` can be obtained from `s` by deleting elements: same elements, same relative order. */
  predicate IsSubsequence<T(==)>(sub: seq<T>, s: seq<T>)
    decreases |s|
  {
    |sub| == 0 ||
    (|s| > 0 && ((sub[0] == s[0] && IsSubsequence(sub[1..], s[1..])) || IsSubsequence(sub, s[1..])))
  }

  /** JavaScript's `Array.prototype.filter` with a pure predicate: the elements of `s`
      that `keep` accepts, in their original order. */
  function Filter<T(==,!new)>(s: seq<T>, keep: T -> bool): (r: seq<T>)
    ensures |r| <= |s|
    ensures forall i :: 0 <= i < |r| ==> keep(r[i])
    ensures forall x :: keep(x) ==> multiset(r)[x] == multiset(s)[x]
    ensures IsSubsequence(r, s)
    decreases |s|
  {
    if |s| == 0 then []
    else
      assert s == [s[0]] + s[1..];
      if keep(s[0]) then [s[0]] + Filter(s[1..], keep)
      else Filter(s[1..], keep)
  }

  /** A filter keeps something exactly when some element passes it. */
  lemma FilterNonEmpty<T(!new)>(s: seq<T>, keep: T -> bool)
    ensures |Filter(s, keep)| > 0 <==> exists i :: 0 <= i < |s| && keep(s[i])
  {
    var r := Filter(s, keep);
    if |r| > 0 {
      assert r[0] in multiset(r);
      assert r[0] in multiset(s);
      var i :| 0 <= i < |s| && s[i] == r[0];
      assert keep(s[i]);
    }
    if i :| 0 <= i < |s| && keep(s[i]) {
      assert s[i] in multiset(s);
      assert multiset(r)[s[i]] > 0;
    }
  }

  lemma {:induction false} SubsequenceReflexive<T>(s: seq<T>)
    ensures IsSubsequence(s, s)
    decreases |s|
  {
    if |s| > 0 {
      SubsequenceReflexive(s[1..]);
    }
  }

  lemma {:induction false} SubsequenceTransitive<T>(a: seq<T>, b: seq<T>, c: seq<T>)
    requires IsSubsequence(a, b) && IsSubsequence(b, c)
    ensures IsSubsequence(a, c)
    decreases |a| + |b| + |c|
  {
    if |a| > 0 {
      if IsSubsequence(b, c[1..]) {
        SubsequenceTransitive(a, b, c[1..]);
      } else if a[0] == b[0] && IsSubsequence(a[1..], b[1..]) {
        SubsequenceTransitive(a[1..], b[1..], c[1..]);
      } else {
        SubsequenceTransitive(a, b[1..], c[1..]);
      }
    }
  }

  /** A subsequence is never longer than the sequence it is taken from. */
  lemma {:induction false} SubsequenceLength<T>(sub: seq<T>, s: seq<T>)
    requires IsSubsequence(sub, s)
    ensures |sub| <= |s|
    decreases |s|
  {
    if |sub| > 0 {
      if sub[0] == s[0] && IsSubsequence(sub[1..], s[1..]) {
        SubsequenceLength(sub[1..], s[1..]);
      } else {
        SubsequenceLength(sub, s[1..]);
      }
    }
  }

  /** Filtering with a predicate that accepts every element changes nothing. */
  lemma {:induction false} FilterKeepsAll<T(!new)>(s: seq<T>, keep: T -> bool)
    requires forall i :: 0 <= i < |s| ==> keep(s[i])
    ensures Filter(s, keep) == s
    decreases |s|
  {
    if |s| > 0 {
      FilterKeepsAll(s[1..], keep);
    }
  }

  /** Filtering distributes over concatenation. */
  lemma {:induction false} FilterAppend<T(!new)>(a: seq<T>, b: seq<T>, keep: T -> bool)
    ensures Filter(a + b, keep) == Filter(a, keep) + Filter(b, keep)
    decreases |a|
  {
    if |a| == 0 {
      assert a + b == b;
    } else {
      var ab := a + b;
      assert ab[0] == a[0];
      assert ab[1..] == a[1..] + b;
      FilterAppend(a[1..], b, keep);
      if keep(a[0]) {
        calc {
          Filter(ab, keep);
          [a[0]] + Filter(a[1..] + b, keep);
          [a[0]] + (Filter(a[1..], keep) + Filter(b, keep));
          ([a[0]] + Filter(a[1..], keep)) + Filter(b, keep);
        }
      }
    }
  }

  /** Two complementary filters split a sequence between them. */
  lemma {:induction false} FilterPartition<T(!new)>(s: seq<T>, p: T -> bool, q: T -> bool)
    requires forall x :: q(x) == !p(x)
    ensures |Filter(s, p)| + |Filter(s, q)| == |s|
    decreases |s|
  {
    if |s| > 0 {
      FilterPartition(s[1..], p, q);
    }
  }

  /** Filtering by a stronger predicate after a weaker one is filtering by the stronger one. */
  lemma {:induction false} FilterFilter<T(!new)>(s: seq<T>, p: T -> bool, q: T -> bool)
    requires forall x :: q(x) ==> p(x)
    ensures Filter(Filter(s, p), q) == Filter(s, q)
    decreases |s|
  {
    if |s| > 0 {
      FilterFilter(s[1..], p, q);
    }
  }
}

=== FILE: sidebar_chat_list.dfy ===
/** The state behind the sidebar chat list (`src/components/SidebarChatList.tsx`):
    the list of unseen messages, its update when the path changes, and what each
    friend's entry shows. Rendering is not modelled. */
module SidebarChatList {
  import opened Options
  import opened Strings
  import opened Seqs
  import opened Db
  import Utils

  /** The message record shape (`id`, `senderId`, `receiverId`, `text`,
      `timestamp`); the timestamp is a JavaScript number, kept here as an integer. */
  datatype Message = Message(id: string, senderId: Id, receiverId: Id, text: string, timestamp: int)

  /** The list starts empty. */
  const InitialUnseen: seq<Message> := []

  /** Keeps the messages whose sender id does not occur in `pathname`. */
  function NotShownIn(pathname: string): Message -> bool
  {
    (m: Message) => !Includes(pathname, m.senderId)
  }

  /** The effect on a pathname change: on a chat page, drop every message whose
      sender id occurs in the path; otherwise (no path, or no "chat" in it) keep
      the list as it is. */
  function OnPathnameChange(unseen: seq<Message>, pathname: Option<string>): (r: seq<Message>)
    ensures IsSubsequence(r, unseen)
    ensures pathname.None? || !Includes(pathname.value, "chat") ==> r == unseen
    ensures pathname.Some? && Includes(pathname.value, "chat") ==>
      && (forall i :: 0 <= i < |r| ==> !Includes(pathname.value, r[i].senderId))
      && (forall m: Message :: !Includes(pathname.value, m.senderId) ==> multiset(r)[m] == multiset(unseen)[m])
  {
    SubsequenceReflexive(unseen);
    if pathname.Some? && Includes(pathname.value, "chat") then Filter(unseen, NotShownIn(pathname.value))
    else unseen
  }

  /** The list after a series of pathname changes. */
  function Replay(unseen: seq<Message>, paths: seq<Option<string>>): seq<Message>
    decreases |paths|
  {
    if |paths| == 0 then unseen else Replay(OnPathnameChange(unseen, paths[0]), paths[1..])
  }

  /** The list only ever loses entries: whatever the pathname changes, it ends a
      subsequence of where it started. */
  lemma {:induction false} ReplayShrinks(unseen: seq<Message>, paths: seq<Option<string>>)
    ensures IsSubsequence(Replay(unseen, paths), unseen)
    ensures |Replay(unseen, paths)| <= |unseen|
    decreases |paths|
  {
    if |paths| == 0 {
      SubsequenceReflexive(unseen);
    } else {
      var next := OnPathnameChange(unseen, paths[0]);
      ReplayShrinks(next, paths[1..]);
      SubsequenceTransitive(Replay(next, paths[1..]), next, unseen);
    }
    SubsequenceLength(Replay(unseen, paths), unseen);
  }

  /** Starting empty and only ever filtered, the list stays empty, so every
      friend's unseen count is 0. */
  lemma UnseenStaysEmpty(paths: seq<Option<string>>)
    ensures Replay(InitialUnseen, paths) == []
    ensures forall f :: UnseenCount(Replay(InitialUnseen, paths), f) == 0
  {
    ReplayShrinks(InitialUnseen, paths);
  }

  // ---------------------------------------------------------------------------
  // Per-friend unseen count
  // ---------------------------------------------------------------------------

  /** Keeps the messages sent by `friendId`. */
  function FromSender(friendId: Id): Message -> bool
  {
    (m: Message) => m.senderId == friendId
  }

  /** Keeps the messages not sent by `friendId`. */
  function NotFromSender(friendId: Id): Message -> bool
  {
    (m: Message) => m.senderId != friendId
  }

  /** `unseenMessages.filter((m) => m.senderId === friend.id).length`. */
  function UnseenCount(unseen: seq<Message>, friendId: Id): (n: nat)
    ensures n <= |unseen|
    ensures n > 0 <==> exists i :: 0 <= i < |unseen| && unseen[i].senderId == friendId
  {
    FilterNonEmpty(unseen, FromSender(friendId));
    |Filter(unseen, FromSender(friendId))|
  }

  /** The sum of the counts of a list of friends. */
  function TotalUnseen(unseen: seq<Message>, friendIds: seq<Id>): nat
    decreases |friendIds|
  {
    if |friendIds| == 0 then 0 else UnseenCount(unseen, friendIds[0]) + TotalUnseen(unseen, friendIds[1..])
  }

  /** Counts for ids other than `f` do not change when `f`'s messages are removed. */
  lemma {:induction false} TotalUnseenIgnoresOthers(unseen: seq<Message>, f: Id, friendIds: seq<Id>)
    requires f !in friendIds
    ensures TotalUnseen(Filter(unseen, NotFromSender(f)), friendIds) == TotalUnseen(unseen, friendIds)
    decreases |friendIds|
  {
    if |friendIds| > 0 {
      var g := friendIds[0];
      FilterFilter(unseen, NotFromSender(f), FromSender(g));
      TotalUnseenIgnoresOthers(unseen, f, friendIds[1..]);
    }
  }

  /** Distinct friends' counts add up to at most the number of unseen messages:
      no message is counted for two friends. */
  lemma {:induction false} TotalUnseenBounded(unseen: seq<Message>, friendIds: seq<Id>)
    requires forall i, j :: 0 <= i < j < |friendIds| ==> friendIds[i] != friendIds[j]
    ensures TotalUnseen(unseen, friendIds) <= |unseen|
    decreases |friendIds|
  {
    if |friendIds| > 0 {
      var f, rest := friendIds[0], friendIds[1..];
      var others := Filter(unseen, NotFromSender(f));
      assert f !in rest by {
        forall k | 0 <= k < |rest| ensures rest[k] != f {
          assert rest[k] == friendIds[k + 1];
        }
      }
      TotalUnseenIgnoresOthers(unseen, f, rest);
      TotalUnseenBounded(others, rest);
      FilterPartition(unseen, FromSender(f), NotFromSender(f));
    }
  }

  // ---------------------------------------------------------------------------
  // Entries
  // ---------------------------------------------------------------------------

  /** What one friend's entry shows: the link, the name, and the badge with the
      count when there is one. */
  datatype Entry = Entry(href: string, name: string, badge: Option<nat>)

  /** The link to the conversation with a friend (`friend.id ?? ""`). */
  function ChatLink(sessionId: Id, friendId: Option<Id>): string
  {
    "/dashboard/chat/" + Utils.ChatHref(sessionId, friendId.GetOr(""))
  }

  /** A friend without an id never matches a sender id, so their count is 0. */
  function BadgeCount(unseen: seq<Message>, friend: User): (n: nat)
    ensures friend.id.None? ==> n == 0
    ensures n > 0 <==> friend.id.Some? && exists i :: 0 <= i < |unseen| && unseen[i].senderId == friend.id.value
  {
    match friend.id
    case None => 0
    case Some(fid) => UnseenCount(unseen, fid)
  }

  /** One friend's entry. The badge is shown exactly when some unseen message
      comes from that friend, and then shows a positive count; the link is the
      one the friend computes for the session user. */
  function FriendEntry(sessionId: Id, friend: User, unseen: seq<Message>): (e: Entry)
    ensures e.badge.Some? <==> friend.id.Some? && exists i :: 0 <= i < |unseen| && unseen[i].senderId == friend.id.value
    ensures e.badge.Some? ==> 0 < e.badge.value <= |unseen|
    ensures e.badge.Some? ==> e.badge.value == UnseenCount(unseen, friend.id.value)
    ensures e.name == friend.name
    ensures friend.id.Some? ==> e.href == ChatLink(friend.id.value, Some(sessionId))
  {
    ChatLinkShared(sessionId, friend.id.GetOr(""));
    var n := BadgeCount(unseen, friend);
    Entry(ChatLink(sessionId, friend.id), friend.name, if n > 0 then Some(n) else None)
  }

  /** The list of entries. `friends.toSorted()` on user objects compares their
      common string form "[object Object]", so the stable sort keeps the given
      order and entry `i` belongs to friend `i`. */
  function Entries(sessionId: Id, friends: seq<User>, unseen: seq<Message>): (es: seq<Entry>)
    ensures |es| == |friends|
    ensures forall i :: 0 <= i < |es| ==> es[i] == FriendEntry(sessionId, friends[i], unseen)
  {
    seq(|friends|, i requires 0 <= i < |friends| => FriendEntry(sessionId, friends[i], unseen))
  }

  /** For ids without `-`, the link from a user determines the friend it leads to. */
  lemma ChatLinkDeterminesFriend(sessionId: Id, a: Id, b: Id)
    requires '-' !in sessionId && '-' !in a && '-' !in b
    ensures ChatLink(sessionId, Some(a)) == ChatLink(sessionId, Some(b)) ==> a == b
  {
    var prefix := "/dashboard/chat/";
    var la, lb := ChatLink(sessionId, Some(a)), ChatLink(sessionId, Some(b));
    if la == lb {
      assert Utils.ChatHref(sessionId, a) == la[|prefix|..];
      assert Utils.ChatHref(sessionId, b) == lb[|prefix|..];
      Utils.ChatHrefDeterminesPair(sessionId, a, sessionId, b);
    }
  }

  /** Friends with distinct ids (none containing `-`) get distinct links in the
      list. */
  lemma EntriesDistinctLinks(sessionId: Id, friends: seq<User>, unseen: seq<Message>)
    requires '-' !in sessionId
    requires forall i :: 0 <= i < |friends| ==> friends[i].id.Some? && '-' !in friends[i].id.value
    requires forall i, j :: 0 <= i < j < |friends| ==> friends[i].id != friends[j].id
    ensures var es := Entries(sessionId, friends, unseen);
      forall i, j :: 0 <= i < j < |es| ==> es[i].href != es[j].href
  {
    var es := Entries(sessionId, friends, unseen);
    forall i, j | 0 <= i < j < |es| ensures es[i].href != es[j].href {
      var a, b := friends[i].id.value, friends[j].id.value;
      assert es[i].href == ChatLink(sessionId, Some(a));
      assert es[j].href == ChatLink(sessionId, Some(b));
      ChatLinkDeterminesFriend(sessionId, a, b);
    }
  }

  /** Both sides of a conversation link to the same chat: the session user's link
      to a friend equals the friend's link to the session user. */
  lemma ChatLinkShared(sessionId: Id, friendId: Id)
    ensures ChatLink(sessionId, Some(friendId)) == ChatLink(friendId, Some(sessionId))
  {
    Utils.ChatHrefSymmetric(sessionId, friendId);
  }
}

=== FILE: strings.dfy ===
/** The two JavaScript string queries the routing code relies on. */
module Strings {

  /** `s.startsWith(prefix)`. */
  predicate StartsWith(s: string, prefix: string)
  {
    |prefix| <= |s| && s[..|prefix|] == prefix
  }

  /** `haystack.includes(needle)`: `needle` occurs as a contiguous block of
      `haystack`; the empty needle occurs in every string. */
  predicate Includes(haystack: string, needle: string)
    decreases |haystack|
  {
    StartsWith(haystack, needle) || (|haystack| > 0 && Includes(haystack[1..], needle))
  }
}

=== FILE: utils.dfy ===
/** The two identifier helpers of `src/lib/utils.ts`: the conversation id built
    from two user ids, and the transformation that makes a store key usable as
    a broadcast channel name. */
module Utils {

  // ---------------------------------------------------------------------------
  // String order used by `Array.prototype.toSorted()` without a comparator
  // ---------------------------------------------------------------------------

  /** Strict lexicographic order: the first differing character decides, and a
      proper prefix sorts before any of its extensions. */
  predicate Below(a: string, b: string)
    decreases |a|
  {
    if |a| == 0 then |b| > 0
    else if |b| == 0 then false
    else if a[0] != b[0] then a[0] < b[0]
    else Below(a[1..], b[1..])
  }

  /** Non-strict order: `a` does not sort after `b`. */
  predicate LexLe(a: string, b: string)
  {
    !Below(b, a)
  }

  lemma {:induction false} BelowIrreflexive(a: string)
    ensures !Below(a, a)
    decreases |a|
  {
    if |a| > 0 {
      BelowIrreflexive(a[1..]);
    }
  }

  lemma {:induction false} BelowAsymmetric(a: string, b: string)
    ensures Below(a, b) ==> !Below(b, a)
    decreases |a|
  {
    if |a| > 0 && |b| > 0 && a[0] == b[0] {
      BelowAsymmetric(a[1..], b[1..]);
    }
  }

  /** Any two distinct strings are ordered one way or the other. */
  lemma {:induction false} BelowTotal(a: string, b: string)
    ensures a == b || Below(a, b) || Below(b, a)
    decreases |a|
  {
    if |a| > 0 && |b| > 0 && a[0] == b[0] {
      BelowTotal(a[1..], b[1..]);
      if a[1..] == b[1..] {
        assert a == [a[0]] + a[1..] && b == [b[0]] + b[1..];
      }
    }
  }

  lemma {:induction false} BelowTransitive(a: string, b: string, c: string)
    requires Below(a, b) && Below(b, c)
    ensures Below(a, c)
    decreases |a|
  {
    if |a| > 0 && a[0] == b[0] && b[0] == c[0] {
      BelowTransitive(a[1..], b[1..], c[1..]);
    }
  }

  /** `LexLe` is a total order: reflexive, antisymmetric, transitive and total. */
  lemma LexLeTotalOrder(a: string, b: string, c: string)
    ensures LexLe(a, a)
    ensures LexLe(a, b) && LexLe(b, a) ==> a == b
    ensures LexLe(a, b) && LexLe(b, c) ==> LexLe(a, c)
    ensures LexLe(a, b) || LexLe(b, a)
  {
    BelowIrreflexive(a);
    BelowTotal(a, b);
    BelowAsymmetric(a, b);
    if LexLe(a, b) && LexLe(b, c) && a != b && b != c {
      BelowTotal(a, b);
      BelowTotal(b, c);
      BelowTransitive(a, b, c);
      BelowAsymmetric(a, c);
    }
  }

  // ---------------------------------------------------------------------------
  // getChatHref
  // ---------------------------------------------------------------------------

  const Separator: string := "--"

  /** `getChatHref(id1, id2)`: the two ids, smaller first, joined by `--`.
      Sorting the two-element array is stable, so the ids are swapped only when
      the second sorts strictly before the first. */
  function ChatHref(id1: string, id2: string): (r: string)
    ensures r == id1 + Separator + id2 || r == id2 + Separator + id1
    ensures |r| == |id1| + |id2| + |Separator|
  {
    if Below(id2, id1) then id2 + Separator + id1 else id1 + Separator + id2
  }

  /** Both participants compute the same conversation id. */
  lemma ChatHrefSymmetric(a: string, b: string)
    ensures ChatHref(a, b) == ChatHref(b, a)
  {
    BelowTotal(a, b);
    BelowAsymmetric(a, b);
  }

  /** The conversation id is the smaller id, the separator, then the larger id. */
  lemma ChatHrefSorted(a: string, b: string)
    ensures LexLe(a, b) ==> ChatHref(a, b) == a + Separator + b
    ensures LexLe(b, a) ==> ChatHref(a, b) == b + Separator + a
  {
    BelowTotal(a, b);
  }

  /** Splitting at the first `-` recovers both halves of `x + "--" + y` when `x`
      holds no `-`. */
  lemma SplitAtSeparator(x: string, y: string, x': string, y': string)
    requires '-' !in x && '-' !in x'
    requires x + Separator + y == x' + Separator + y'
    ensures x == x' && y == y'
  {
    var s := x + Separator + y;
    assert s == x' + Separator + y';
    assert s[|x|] == '-' && s[|x'|] == '-';
    assert forall i :: 0 <= i < |x| ==> s[i] == x[i];
    assert forall i :: 0 <= i < |x'| ==> s[i] == x'[i];
    assert x == s[..|x|] == x';
    assert y == s[|x| + 2..] == y';
  }

  /** For ids without `-`, the conversation id determines the unordered pair of
      participants. */
  lemma ChatHrefDeterminesPair(a: string, b: string, c: string, d: string)
    requires '-' !in a && '-' !in b && '-' !in c && '-' !in d
    requires ChatHref(a, b) == ChatHref(c, d)
    ensures (a == c && b == d) || (a == d && b == c)
  {
    var r := ChatHref(a, b);
    if r == a + Separator + b {
      if r == c + Separator + d {
        SplitAtSeparator(a, b, c, d);
      } else {
        SplitAtSeparator(a, b, d, c);
      }
    } else {
      if r == c + Separator + d {
        SplitAtSeparator(b, a, c, d);
      } else {
        SplitAtSeparator(b, a, d, c);
      }
    }
  }

  /** Ids that contain the separator can collide: the conversation of "a--b"
      and "c" has the same id as that of "a" and "b--c". */
  lemma ChatHrefCollision()
    ensures ChatHref("a--b", "c") == ChatHref("a", "b--c") == "a--b--c"
  {
    assert Below("a--b", "c");
    assert Below("a", "b--c");
  }

  // ---------------------------------------------------------------------------
  // toPusherKey
  // ---------------------------------------------------------------------------

  /** `toPusherKey(key)`: every `:` becomes `__`; every other character is kept. */
  function ToPusherKey(key: string): (r: string)
    ensures |r| == |key| + multiset(key)[':']
    ensures ':' !in r
    decreases |key|
  {
    if |key| == 0 then ""
    else
      assert key == [key[0]] + key[1..];
      (if key[0] == ':' then "__" else [key[0]]) + ToPusherKey(key[1..])
  }

  /** The transformation works character by character, so it distributes over
      concatenation. */
  lemma {:induction false} ToPusherKeyAppend(a: string, b: string)
    ensures ToPusherKey(a + b) == ToPusherKey(a) + ToPusherKey(b)
    decreases |a|
  {
    if |a| == 0 {
      assert a + b == b;
    } else {
      assert (a + b)[0] == a[0];
      assert (a + b)[1..] == a[1..] + b;
      ToPusherKeyAppend(a[1..], b);
    }
  }

  /** A key without `:` is already a valid channel name and is returned as is. */
  lemma {:induction false} ToPusherKeyNoColon(s: string)
    requires ':' !in s
    ensures ToPusherKey(s) == s
    decreases |s|
  {
    if |s| > 0 {
      assert ':' !in s[1..] by {
        forall i | 0 <= i < |s[1..]| ensures s[1..][i] != ':' {
          assert s[1..][i] == s[i + 1];
        }
      }
      ToPusherKeyNoColon(s[1..]);
      assert s[0] != ':' by { assert s[0] in s; }
      assert ToPusherKey(s) == [s[0]] + ToPusherKey(s[1..]);
      assert s == [s[0]] + s[1..];
    }
  }

  /** Applying the transformation twice is the same as applying it once. */
  lemma {:induction false} ToPusherKeyIdempotent(s: string)
    ensures ToPusherKey(ToPusherKey(s)) == ToPusherKey(s)
  {
    ToPusherKeyNoColon(ToPusherKey(s));
  }

  /** Where each input character lands: the character at index `i` of `s` is
      shifted right by the number of `:` before it; a non-`:` character is kept
      there, a `:` becomes two `_`. Since the shift grows with `i`, the kept
      characters stay in their original order. */
  lemma ToPusherKeyPosition(s: string, i: int)
    requires 0 <= i < |s|
    ensures var j := i + multiset(s[..i])[':'];
      if s[i] == ':' then
        j + 1 < |ToPusherKey(s)| && ToPusherKey(s)[j] == '_' && ToPusherKey(s)[j + 1] == '_'
      else
        j < |ToPusherKey(s)| && ToPusherKey(s)[j] == s[i]
  {
    var pre, c, rest := s[..i], [s[i]], s[i + 1..];
    assert s == pre + (c + rest);
    ToPusherKeyAppend(pre, c + rest);
    ToPusherKeyAppend(c, rest);
    var head := ToPusherKey(pre);
    var mid := ToPusherKey(c);
    assert mid == (if s[i] == ':' then "__" else c) by {
      assert c[1..] == [];
    }
    assert ToPusherKey(s) == head + (mid + ToPusherKey(rest));
    assert |head| == i + multiset(pre)[':'];
  }

  /** Joining two keys with `:` joins their channel names with `__`. */
  lemma ToPusherKeyJoin(a: string, b: string)
    ensures ToPusherKey(a + ":" + b) == ToPusherKey(a) + "__" + ToPusherKey(b)
  {
    var colon := ":";
    assert ToPusherKey(colon) == "__" by {
      assert colon[1..] == [];
    }
    ToPusherKeyAppend(a, colon);
    ToPusherKeyAppend(a + colon, b);
  }

  /** `toPusherKey` is not injective: a `:` anywhere in a key and a literal `__`
      in its place produce the same channel name (so "a:b" and "a__b" collide). */
  lemma ToPusherKeyCollision(p: string, q: string)
    ensures ToPusherKey(p + ":" + q) == ToPusherKey(p + "__" + q)
  {
    var colon, underscores := ":", "__";
    assert ToPusherKey(colon) == "__" by {
      assert colon[1..] == [];
    }
    ToPusherKeyNoColon(underscores);
    ToPusherKeyAppend(p, colon);
    ToPusherKeyAppend(p + colon, q);
    ToPusherKeyAppend(p, underscores);
    ToPusherKeyAppend(p + underscores, q);
  }
}
